=== FILE: README.md ===
# Variant handler of tailwindcss-feature-detection, in Dafny

The plugin registers "feature / browser detection" variants with Tailwind CSS.
Each variant is a descriptor `{ name, strategy, parentClassName?, atRule?, enabled? }`.
For every descriptor whose `enabled` is not literally `false`, the entry point
calls `Handler.handle`. That call validates the descriptor strictly in order and
throws a prefixed exception on the first failure. Otherwise it returns one of
two rewrite callbacks:

- **class strategy**: each generated class `C` becomes `.e(parentClassName) .e(name + separator + C)`;
- **atRule strategy**: the container's children move into a new at-rule, and every
  rule inside it gets the selector `.e(name + separator + selector.slice(1))`.

The model is functional. Descriptor fields are JavaScript values (`JsValues.JsValue`),
because callers can put any value in any field. `typeof`, truthiness and
`String.prototype.trim` are written out. The host's escaper `e` and
`JSON.stringify` are function parameters. `handle` returns a `Result`: either
the callback (as data) plus the descriptor as `handle` leaves it, or the
exception it throws. A plugin exception is recorded as the builder that
threw it and the descriptor passed to that builder; its text is
`Exceptions.Raise` of the two, given `JSON.stringify`. The PostCSS rule tree
is a datatype, and `walkRules` is a recursive map over it.

Modules (one file each):

- `wrappers.dfy`: `Option` and `Result`.
- `js_values.dfy`: JS values, `typeof`, truthiness, property read and write, `trim`.
- `exceptions.dfy`: the message prefix and the four message builders.
- `css_tree.dfy`: rule tree, `walkRules`, and a full characterisation of `walkRules`.
- `handler.dfy`: `handle`, both strategies and both callbacks.
- `handler_properties.dfy`: what `handle` and its callbacks promise.
- `registration.dfy`: the entry point's registration loop.
- `defaults.dfy`: the built-in catalogue of descriptors, and the proof that every entry registers.

Points of the code worth noting:

- An `atRule` needs only a **truthy** `name`. So `name: "  "` and `name: true` pass.
- An array `atRule` is rejected because it has no `name`. The type check alone would let it through.
- Only the literal `false` disables a descriptor.

## Model

| member | source | states |
|---|---|---|
| `JsValues.TypeOf` | src/Handler.ts:37 | `typeof` yields "object" exactly for null, arrays and plain objects, "function" exactly for functions, "string" exactly for strings |
| `JsValues.Lookup` | src/Handler.ts:6 | reading a key that no property carries yields `undefined`; any other result is the value of a property under that key |
| `JsValues.Assign` | src/Handler.ts:22 | after the write the key reads back the written value, every other key reads as before, and no other property is introduced |
| `JsValues.Put` | src/Handler.ts:21-23 | on an object the written key reads back the new value and every other key is unchanged |
| `JsValues.TrimStart` | src/Handler.ts:6 | the result is a suffix of the input that does not start with whitespace, and everything removed is whitespace |
| `JsValues.TrimEnd` | src/Handler.ts:6 | the result is a prefix of the input that does not end with whitespace, and everything removed is whitespace |
| `JsValues.TrimEmptyIffAllWhitespace` | src/Handler.ts:6 | `s.trim().length` is zero exactly when every character of `s` is whitespace |
| `JsValues.FilledStringCharacterised` | src/Handler.ts:25 | a value passes the "string, non-blank after trim" test exactly when it is a string with a non-whitespace character |
| `Exceptions.Thow` | src/Exceptions/TailwindcssFeatureDetectionException.ts:2-4 | the message starts with the constant plugin tag and the rest of it is exactly the given text |
| `Exceptions.StripPrefix` | src/Exceptions/TailwindcssFeatureDetectionException.ts:3 | removing the tag succeeds exactly on tagged messages, and putting the tag back gives the message |
| `Exceptions.ThowRoundTrip` | src/Exceptions/TailwindcssFeatureDetectionException.ts:3 | removing the tag from a thrown message gives back the original text |
| `Exceptions.ThowInjective` | src/Exceptions/TailwindcssFeatureDetectionException.ts:3 | distinct texts give distinct exceptions, because the tag does not depend on the text |
| `Exceptions.Raise` | src/Exceptions/HandlerException.ts:5-35 | every builder's message is laid out as: the tag, "The provided variant `", the serialised descriptor, a closing backtick, one space, the kind's diagnosis ("does not have a valid name", "... strategy", "... \"parentClassName\" property", "... \"atRule\" property"), and last the kind's advice sentence ("Please ensure ...") |
| `Exceptions.StrategyMessageNamesBothStrategies` | src/Exceptions/HandlerException.ts:13-19 | the invalid-strategy message names both `class` and `atRule` |
| `Exceptions.RaiseDistinguishesKinds` | src/Exceptions/HandlerException.ts:5-35 | for one descriptor, the four builders produce four different messages |
| `CssTree.WalkRules` | src/Handler.ts:47-49 | the walk keeps the number and order of sibling nodes and treats each one independently |
| `CssTree.WalkRulesKeepSkeleton` | src/Handler.ts:47-49 | the walk changes nothing except rule selectors: at-rules, declarations, comments and nesting are unchanged |
| `CssTree.WalkRulesMapSelectors` | src/Handler.ts:47-49 | every rule at every depth is visited once, in document order, and its new selector is the callback applied to its old one |
| `CssTree.ForestDetermined` | src/Handler.ts:47-49 | a forest is determined by its skeleton and its list of selectors |
| `CssTree.WalkRulesCharacterised` | src/Handler.ts:47-49 | a forest is the walk's result exactly when it has the old skeleton and the mapped selectors |
| `Handler.Handle` | src/Handler.ts:5-18 | a TypeError happens exactly for an undefined or null descriptor; every plugin exception is built from the descriptor as passed in, before any write; success implies a filled name, keys the callback by that name, and writes at most `parentClassName` (nothing at all when it was given) |
| `Handler.DefaultParentClassName` | src/Handler.ts:21-23 | the descriptor keeps its `name`; an undefined `parentClassName` is set to the name; any other `parentClassName` leaves the descriptor exactly as it was |
| `Handler.HandleClassStrategy` | src/Handler.ts:20-34 | succeeds exactly when `parentClassName` is omitted or a filled string; otherwise throws InvalidParentClassName; the callback nests under the untrimmed name when the parent class name was omitted, else under the given one |
| `Handler.HandleAtRuleStrategy` | src/Handler.ts:36-41 | succeeds exactly when `atRule` is truthy, of type object and has a truthy `name`; otherwise throws InvalidAtRule; the descriptor is left untouched and the callback keeps the `atRule` props verbatim |
| `Handler.DropFirst` | src/Handler.ts:48 | `slice(1)` drops exactly the first character (a code point) and gives "" on "" |
| `Handler.WrapInAtRule` | src/Handler.ts:41-50 | the container's only child becomes an at-rule built from the descriptor's props; it holds the former children in order, unchanged except for selectors; each rule's selector becomes `.e(name + separator + old.slice(1))` |
| `Handler.ApplyToClassName` | src/Handler.ts:29-33 | running a class callback on a class name gives `.`, the escaped parent class, a space and `.`, then the escaped variant-prefixed class, and nothing else |
| `Handler.ApplyToContainer` | src/Handler.ts:41-50 | running an at-rule callback on a container gives one at-rule built from the callback's props, holding the former children with their structure kept and each selector retargeted to the variant |
| `HandlerProperties.HandleRejectsInvalidName` | src/Handler.ts:6-8 | InvalidName is thrown exactly when `name` is not a string or is blank, whatever the other fields hold |
| `HandlerProperties.BlankNameRejected` | src/Handler.ts:6-8 | a name made only of whitespace (or empty) is rejected with InvalidName |
| `HandlerProperties.HandleRejectsInvalidStrategy` | src/Handler.ts:10-17 | InvalidStrategy is thrown exactly when the name is valid and `strategy` is neither the string `class` nor `atRule` |
| `HandlerProperties.HandleRejectsInvalidParentClassName` | src/Handler.ts:20-27 | InvalidParentClassName is thrown exactly for the class strategy with an explicitly given `parentClassName` that is not a filled string |
| `HandlerProperties.HandleRejectsInvalidAtRule` | src/Handler.ts:36-39 | InvalidAtRule is thrown exactly for the at-rule strategy when `atRule` is falsy, not of type object, or has a falsy `name` |
| `HandlerProperties.HandleAccepts` | src/Handler.ts:5-40 | `handle` succeeds exactly when the name is valid and the checks of the descriptor's own strategy pass |
| `HandlerProperties.AcceptedAtRuleCallback` | src/Handler.ts:36-41 | a valid at-rule descriptor yields the at-rule callback over its own name and `atRule` props, and the descriptor is left as it was |
| `HandlerProperties.AcceptedClassCallback` | src/Handler.ts:20-29 | a valid class descriptor with an explicit parent class name yields the class callback over that name, and the descriptor is left as it was |
| `HandlerProperties.OmittedParentClassNameDefaultsToName` | src/Handler.ts:21-23 | an omitted `parentClassName` becomes the untrimmed name, so it can never fail; the descriptor afterwards carries the name as `parentClassName` |
| `HandlerProperties.ExplicitBadParentClassNameRejected` | src/Handler.ts:25-27 | an explicit blank string, `null`, number, boolean, array, object or function as `parentClassName` fails, even though omitting it would succeed |
| `HandlerProperties.NonObjectAtRuleRejected` | src/Handler.ts:37 | an array (as modelled, holding only its elements), function or string is never an acceptable `atRule` |
| `HandlerProperties.ClassStrategyIgnoresAtRule` | src/Handler.ts:20-34 | for the class strategy, changing `atRule` changes neither the outcome kind nor the callback |
| `HandlerProperties.SameClassOutcome` | src/Handler.ts:20-27 | two class descriptors that agree on `name` and `parentClassName` get the same outcome kind and callback |
| `HandlerProperties.AtRuleStrategyIgnoresParentClassName` | src/Handler.ts:36-51 | for the at-rule strategy, changing `parentClassName` changes neither the outcome kind nor the callback, and nothing is written |
| `HandlerProperties.HandleIdempotent` | src/Handler.ts:21-27 | handling the descriptor that `handle` left behind gives the same result again, so the one write is stable |
| `HandlerProperties.ErrorsSerialiseTheGivenDescriptor` | src/Exceptions/HandlerException.ts:5-35 | every plugin exception from `handle` is tagged, embeds the caller's descriptor between backticks after "The provided variant ", and contains its kind's diagnosis |
| `HandlerProperties.ClassSelectorInjective` | src/Handler.ts:29-33 | with an injective escaper, distinct utility classes get distinct class-strategy selectors |
| `HandlerProperties.ClassSelectorIsDescendantOfParent` | src/Handler.ts:31 | when the escaped parent class holds no space, the class selector splits into exactly `e(parentClassName)` and `e(name + separator + className)`, joined by a descendant combinator |
| `HandlerProperties.AcceptedClassSelector` | src/Handler.ts:20-33 | the callback of any accepted class descriptor turns a class name into the escaped variant-prefixed class nested under the given `parentClassName`, or under the descriptor's own name when none is given |
| `HandlerProperties.AtRuleRetargetsSimpleClass` | src/Handler.ts:47-49 | a rule with the single-class selector `.c` ends up as `.e(name + separator + c)` inside the new at-rule |
| `HandlerProperties.AcceptedAtRuleContainer` | src/Handler.ts:36-50 | the callback of any accepted at-rule descriptor wraps a container's children in a new at-rule built from the descriptor's own `atRule`, with its variant name and the host separator |
| `HandlerProperties.WrapInAtRuleDetermined` | src/Handler.ts:41-50 | any forest with the old skeleton and the retargeted selectors is exactly the new at-rule's content |
| `Registration.LiveMembers` | src/index.ts:12-15 | an element goes on to `handle` exactly when it is in the list and its `enabled` is not the literal `false` |
| `Registration.RegisterOne` | src/index.ts:13-17 | a live element registers exactly when `handle` succeeds; it is keyed by its `name` and carries the handler's callback; otherwise the handler's exception propagates. A `null` or `undefined` element fails with the TypeError of reading its `enabled` |
| `Registration.Visit` | src/index.ts:12-17 | one turn of the loop: a disabled element is passed over; any other one either extends the registrations in list order or stops the loop at this element with its exception |
| `Registration.Plugin` | src/index.ts:6-20 | absent, non-array or empty options register nothing. Otherwise, without an exception, each live descriptor is registered once, in list order. With an exception, it comes from a non-disabled descriptor `k`, and exactly the live descriptors before `k` have been registered |
| `Registration.AllDisabledIsSilent` | src/index.ts:12-15 | a list whose every element is disabled registers nothing and cannot stop with an exception, however malformed its descriptors |
| `Defaults.AtRuleEntryAccepted` | src/defaults.ts:24-31 | an at-rule catalogue entry with a filled name and a non-empty at-rule name registers under its name with its own at-rule props |
| `Defaults.ClassEntryAccepted` | src/defaults.ts:181-196 | a class catalogue entry registers under its name and nests under its parent class name, or under its own name when none is given |
| `Defaults.EntryRegisters` | src/defaults.ts:3-270 | an entry shaped like the catalogue's (names and parent class names starting with a lower-case ASCII letter, a non-empty at-rule name) is enabled and registers without an exception |
| `Defaults.CatalogueRegistersCleanly` | src/defaults.ts:3-270 | every one of the fourteen built-in descriptors is enabled and registers without an exception |

## Left out

- `Handler.DropFirst`: strings are modelled as sequences of Unicode code points, while JavaScript's `slice(1)` drops one UTF-16 code unit. On a selector whose first character lies outside the Basic Multilingual Plane, JavaScript leaves a lone surrogate and the model drops the whole character. Selectors the at-rule callback sees start with the class dot, where the two agree.
- Sparse option arrays: `Arr` holds a value in every slot, so an array hole cannot be written. `forEach` skips a hole, while the model can only put an explicit `undefined` there, which throws on reading `enabled`.
- `Handler.ClassSelector` has no contract of its own. Its properties are the two `HandlerProperties.ClassSelector…` lemmas.
- Host escaping (`props.e`): a function parameter. Its rules are Tailwind's and are not visible here. The class lemmas assume only injectivity, or that the escaped parent class holds no space.
- `JSON.stringify`: a function parameter. Its output format, its omission of `undefined` fields, and the errors it can throw (cyclic values) are not modelled.
- PostCSS: `postcss.atRule(props)` is modelled as an at-rule node that keeps `props` verbatim and has no children. A `nodes` entry inside the props is not modelled. `append` is taken to move nodes, which is PostCSS's behaviour. Nodes other than rules, at-rules, declarations and comments are not modelled.
- `modifySelectors`: which class names of a generated selector the host hands to the callback is host behaviour. The model states the callback per class name.
- The callbacks read `variant.name`, `variant.parentClassName` and `variant.atRule` when they run. The model fixes them when `handle` returns, so later caller writes to the descriptor are not modelled.
- `Registration.Plugin` returns the registrations and the escaping exception. It does not return the descriptors with their `parentClassName` write-backs. `Handler.Handle` returns those, and `HandlerProperties.HandleIdempotent` shows that handling them again is harmless.
- `HandlerProperties.NonObjectAtRuleRejected`, `JsValues.Put`: `Arr` holds only its elements, so arrays with their own named properties are not modelled. In JavaScript an array given a truthy `name` passes the `atRule` test, and an array with its own `name` and `strategy: 'class'` receives the `parentClassName` write; the model rejects every array `atRule` and has no array descriptor that reaches the class strategy. `Put` is defined on objects only.
- JavaScript values: numbers are reals, so NaN (falsy) is not modelled. A function value carries only its `name` property. No prototype chain is modelled; none of the keys read (`name`, `strategy`, `parentClassName`, `atRule`, `enabled`) is inherited by plain objects, arrays or primitives. With duplicate keys, the first occurrence wins.
- `tailwindPlugin.withOptions` and the no-op plugin returned for unusable options: modelled only as "registers nothing".
- `tsdx.config.js`: a build-time file rewrite driven by polling, with no plugin logic.
- `src/interfaces.ts`: type declarations only. They inform the datatypes.
- The CSS text produced end to end depends on Tailwind's own generation and is not modelled.

=== FILE: css_tree.dfy ===
/** The part of the PostCSS object model the at-rule strategy touches: a tree
    of rules, at-rules, declarations and comments, and `walkRules`, which
    visits every rule below a node and lets a callback rewrite its selector. */
module CssTree {
  import opened JsValues

  /** A PostCSS node. An at-rule built by the host from a props object keeps
      that object verbatim in `spec` (name, params and any extra property). */
  datatype Node =
    | Rule(selector: string, nodes: seq<Node>)
    | AtRule(spec: JsValue, nodes: seq<Node>)
    | Decl(prop: string, value: string)
    | Comment(text: string)

  /** `walkRules` on one node and its descendants, each rule's selector
      replaced by `f` of its old selector. */
  function WalkNode(n: Node, f: string -> string): Node
    decreases n
  {
    match n
    case Rule(s, ch) => Rule(f(s), WalkRules(ch, f))
    case AtRule(spec, ch) => AtRule(spec, WalkRules(ch, f))
    case Decl(_, _) => n
    case Comment(_) => n
  }

  /** `walkRules` over a list of sibling nodes, in order. */
  function WalkRules(ns: seq<Node>, f: string -> string): (r: seq<Node>)
    ensures |r| == |ns|
    ensures forall i | 0 <= i < |ns| :: r[i] == WalkNode(ns[i], f)
    decreases ns
  {
    if |ns| == 0 then [] else [WalkNode(ns[0], f)] + WalkRules(ns[1..], f)
  }

  /** The tree with every selector blanked: what a node is apart from its
      selectors. */
  function Skeleton(n: Node): Node
    decreases n
  {
    match n
    case Rule(_, ch) => Rule("", Skeletons(ch))
    case AtRule(spec, ch) => AtRule(spec, Skeletons(ch))
    case Decl(_, _) => n
    case Comment(_) => n
  }

  function Skeletons(ns: seq<Node>): (r: seq<Node>)
    ensures |r| == |ns|
    ensures forall i | 0 <= i < |ns| :: r[i] == Skeleton(ns[i])
    decreases ns
  {
    if |ns| == 0 then [] else [Skeleton(ns[0])] + Skeletons(ns[1..])
  }

  /** The selectors of the rules in a node, in document order (a rule
      before its descendants). */
  function SelectorsOf(n: Node): seq<string>
    decreases n
  {
    match n
    case Rule(s, ch) => [s] + Selectors(ch)
    case AtRule(_, ch) => Selectors(ch)
    case Decl(_, _) => []
    case Comment(_) => []
  }

  function Selectors(ns: seq<Node>): seq<string>
    decreases ns
  {
    if |ns| == 0 then [] else SelectorsOf(ns[0]) + Selectors(ns[1..])
  }

  /** `f` applied to every element. */
  function MapSeq(f: string -> string, xs: seq<string>): (r: seq<string>)
    ensures |r| == |xs|
    ensures forall i | 0 <= i < |xs| :: r[i] == f(xs[i])
  {
    if |xs| == 0 then [] else [f(xs[0])] + MapSeq(f, xs[1..])
  }

  lemma MapSeqAppend(f: string -> string, xs: seq<string>, ys: seq<string>)
    ensures MapSeq(f, xs + ys) == MapSeq(f, xs) + MapSeq(f, ys)
  {
  }

  /** `walkRules` changes nothing but selectors. */
  lemma {:induction false} WalkNodeKeepsSkeleton(n: Node, f: string -> string)
    ensures Skeleton(WalkNode(n, f)) == Skeleton(n)
    decreases n
  {
    match n
    case Rule(s, ch) => WalkRulesKeepSkeleton(ch, f);
    case AtRule(spec, ch) => WalkRulesKeepSkeleton(ch, f);
    case Decl(_, _) =>
    case Comment(_) =>
  }

  lemma {:induction false} WalkRulesKeepSkeleton(ns: seq<Node>, f: string -> string)
    ensures Skeletons(WalkRules(ns, f)) == Skeletons(ns)
    decreases ns
  {
    if |ns| > 0 {
      WalkNodeKeepsSkeleton(ns[0], f);
      WalkRulesKeepSkeleton(ns[1..], f);
    }
  }

  /** `walkRules` rewrites every rule's selector, and only through `f`. */
  lemma {:induction false} WalkNodeMapsSelectors(n: Node, f: string -> string)
    ensures SelectorsOf(WalkNode(n, f)) == MapSeq(f, SelectorsOf(n))
    decreases n
  {
    match n
    case Rule(s, ch) =>
      WalkRulesMapSelectors(ch, f);
      MapSeqAppend(f, [s], Selectors(ch));
    case AtRule(spec, ch) => WalkRulesMapSelectors(ch, f);
    case Decl(_, _) =>
    case Comment(_) =>
  }

  lemma {:induction false} WalkRulesMapSelectors(ns: seq<Node>, f: string -> string)
    ensures Selectors(WalkRules(ns, f)) == MapSeq(f, Selectors(ns))
    decreases ns
  {
    if |ns| > 0 {
      WalkNodeMapsSelectors(ns[0], f);
      WalkRulesMapSelectors(ns[1..], f);
      MapSeqAppend(f, SelectorsOf(ns[0]), Selectors(ns[1..]));
    }
  }

  /** Nodes of equal skeleton hold the same number of rules. */
  lemma {:induction false} SkeletonFixesRuleCount(a: Node, b: Node)
    requires Skeleton(a) == Skeleton(b)
    ensures |SelectorsOf(a)| == |SelectorsOf(b)|
    decreases a
  {
    match a
    case Rule(_, ch) => SkeletonsFixRuleCount(ch, b.nodes);
    case AtRule(_, ch) => SkeletonsFixRuleCount(ch, b.nodes);
    case Decl(_, _) =>
    case Comment(_) =>
  }

  lemma {:induction false} SkeletonsFixRuleCount(a: seq<Node>, b: seq<Node>)
    requires Skeletons(a) == Skeletons(b)
    ensures |Selectors(a)| == |Selectors(b)|
    decreases a
  {
    if |a| > 0 {
      assert Skeletons(a[1..]) == Skeletons(a)[1..];
      assert Skeletons(b[1..]) == Skeletons(b)[1..];
      SkeletonFixesRuleCount(a[0], b[0]);
      SkeletonsFixRuleCount(a[1..], b[1..]);
    }
  }

  /** A node is determined by its skeleton and its selectors, so the two
      lemmas above describe `walkRules` completely. */
  lemma {:induction false} NodeDetermined(a: Node, b: Node)
    requires Skeleton(a) == Skeleton(b)
    requires SelectorsOf(a) == SelectorsOf(b)
    ensures a == b
    decreases a
  {
    match a
    case Rule(s, ch) =>
      assert [s] + Selectors(ch) == [b.selector] + Selectors(b.nodes);
      assert Selectors(ch) == ([s] + Selectors(ch))[1..];
      ForestDetermined(ch, b.nodes);
    case AtRule(_, ch) => ForestDetermined(ch, b.nodes);
    case Decl(_, _) =>
    case Comment(_) =>
  }

  lemma {:induction false} ForestDetermined(a: seq<Node>, b: seq<Node>)
    requires Skeletons(a) == Skeletons(b)
    requires Selectors(a) == Selectors(b)
    ensures a == b
    decreases a
  {
    if |a| > 0 {
      assert Skeletons(a[1..]) == Skeletons(a)[1..];
      assert Skeletons(b[1..]) == Skeletons(b)[1..];
      SkeletonFixesRuleCount(a[0], b[0]);
      var k := |SelectorsOf(a[0])|;
      assert SelectorsOf(a[0]) == Selectors(a)[..k];
      assert SelectorsOf(b[0]) == Selectors(b)[..k];
      assert Selectors(a[1..]) == Selectors(a)[k..];
      assert Selectors(b[1..]) == Selectors(b)[k..];
      NodeDetermined(a[0], b[0]);
      ForestDetermined(a[1..], b[1..]);
      assert a == [a[0]] + a[1..];
      assert b == [b[0]] + b[1..];
    }
  }

  /** The characterisation of `walkRules`: the unique forest with the old
      skeleton whose selectors are `f` of the old ones. */
  lemma WalkRulesCharacterised(ns: seq<Node>, f: string -> string, result: seq<Node>)
    ensures result == WalkRules(ns, f)
        <==> Skeletons(result) == Skeletons(ns) && Selectors(result) == MapSeq(f, Selectors(ns))
  {
    WalkRulesKeepSkeleton(ns, f);
    WalkRulesMapSelectors(ns, f);
    if Skeletons(result) == Skeletons(ns) && Selectors(result) == MapSeq(f, Selectors(ns)) {
      ForestDetermined(result, WalkRules(ns, f));
    }
  }
}

=== FILE: defaults.dfy ===
/** The built-in catalogue of browser- and feature-detection variants, as
    data, and the fact that every entry passes the handler's checks. */
module Defaults {
  import opened Wrappers
  import opened JsValues
  import opened Handler
  import opened Registration
  import opened HandlerProperties

  /** `{ name, strategy: 'atRule', atRule: { name: atName, params } }`. */
  function AtRuleEntry(name: string, atName: string, params: string): JsValue
  {
    Obj([ Prop("name", Str(name)),
          Prop("strategy", Str("atRule")),
          Prop("atRule", Obj([Prop("name", Str(atName)), Prop("params", Str(params))])) ])
  }

  /** `{ name, strategy: 'class' }`, with `parentClassName` when given. */
  function ClassEntry(name: string, parent: Option<string>): JsValue
  {
    match parent
    case None => Obj([Prop("name", Str(name)), Prop("strategy", Str("class"))])
    case Some(p) => Obj([Prop("name", Str(name)), Prop("strategy", Str("class")), Prop("parentClassName", Str(p))])
  }

  /** One catalogue entry, before it is written as a descriptor object. */
  datatype Entry =
    | AtRuleSpec(name: string, atName: string, params: string)
    | ClassSpec(name: string, parent: Option<string>)

  function Descriptor(e: Entry): JsValue
  {
    match e
    case AtRuleSpec(name, atName, params) => AtRuleEntry(name, atName, params)
    case ClassSpec(name, parent) => ClassEntry(name, parent)
  }

  function Descriptors(es: seq<Entry>): (r: seq<JsValue>)
    ensures |r| == |es| && forall i | 0 <= i < |es| :: r[i] == Descriptor(es[i])
  {
    if |es| == 0 then [] else [Descriptor(es[0])] + Descriptors(es[1..])
  }

  const Entries: seq<Entry> := [
    AtRuleSpec("ie", "media", "all and (-ms-high-contrast: none), (-ms-high-contrast: active)"),
    AtRuleSpec("old-edge", "supports", "(-ms-ime-align: auto)"),
    AtRuleSpec("firefox", "-moz-document", "url-prefix()"),
    AtRuleSpec("safari", "media", "not all and (min-resolution: 0.001dpcm)"),
    AtRuleSpec("chromium", "media",
      "screen and (-webkit-min-device-pixel-ratio: 0) and (min-resolution: 0.001dpcm)"),
    AtRuleSpec("modern", "supports",
      "\n                (display: revert)\n                and (font-size: min(1em, 2em))"
      + "\n                and (font-size: max(1em, 2em))"
      + "\n                and (font-size: clamp(1em, 2em, 3em))\n            "),
    AtRuleSpec("egde", "supports",
      "\n                (contain: content)\n                and (height: fit-content)"
      + "\n                and (content-visibility: hidden)"
      + "\n                and (contain-intrinsic-size: 1000px)"
      + "\n                and (aspect-ratio: 1 / 1)\n            "),
    ClassSpec("nojs", Some("no-js")),
    ClassSpec("flexgap", None),
    AtRuleSpec("var", "supports", "(color: var(--primary))"),
    AtRuleSpec("grid", "supports", "(display: grid) and (gap: 1em)"),
    AtRuleSpec("object-fit", "supports", "(object-fit: cover)"),
    AtRuleSpec("clamp", "supports", "(font-size: clamp(1em, 2em, 3em))"),
    AtRuleSpec("aspect", "supports", "(aspect-ratio: 1 / 1)")
  ]

  /** The fourteen built-in variant descriptors, in order. */
  const Catalogue: seq<JsValue> := Descriptors(Entries)

  /** An at-rule entry with a filled name and a non-empty at-rule name is
      accepted, and its callback wraps in exactly the entry's at-rule props. */
  lemma AtRuleEntryAccepted(name: string, atName: string, params: string)
    requires |Trim(name)| > 0 && |atName| > 0
    ensures !Skipped(AtRuleEntry(name, atName, params))
    ensures RegisterOne(AtRuleEntry(name, atName, params))
         == Success(Registration(name, AtRuleCallback(name,
              Obj([Prop("name", Str(atName)), Prop("params", Str(params))]))))
  {
    var v := AtRuleEntry(name, atName, params);
    AtRuleEntryFields(name, atName, params);
    AcceptedAtRuleCallback(v);
  }

  lemma AtRuleEntryFields(name: string, atName: string, params: string)
    ensures Get(AtRuleEntry(name, atName, params), "name") == Str(name)
    ensures Get(AtRuleEntry(name, atName, params), "strategy") == Str("atRule")
    ensures Get(AtRuleEntry(name, atName, params), "atRule")
         == Obj([Prop("name", Str(atName)), Prop("params", Str(params))])
    ensures Get(Get(AtRuleEntry(name, atName, params), "atRule"), "name") == Str(atName)
    ensures Get(AtRuleEntry(name, atName, params), "enabled") == Undefined
  {
    var atRule := Obj([Prop("name", Str(atName)), Prop("params", Str(params))]);
    var a, b, c := Prop("name", Str(name)), Prop("strategy", Str("atRule")), Prop("atRule", atRule);
    LookupThree(a, b, c, "name");
    LookupThree(a, b, c, "strategy");
    LookupThree(a, b, c, "atRule");
    LookupThree(a, b, c, "enabled");
    LookupTwo(Prop("name", Str(atName)), Prop("params", Str(params)), "name");
  }

  /** A class entry with a filled name and, if given, a filled parent class
      name is accepted; without one it nests under its own name. */
  lemma ClassEntryAccepted(name: string, parent: Option<string>)
    requires |Trim(name)| > 0
    requires parent.Some? ==> |Trim(parent.value)| > 0
    ensures !Skipped(ClassEntry(name, parent))
    ensures RegisterOne(ClassEntry(name, parent))
         == Success(Registration(name, ClassCallback(name, parent.GetOr(name))))
  {
    var v := ClassEntry(name, parent);
    ClassEntryFields(name, parent);
    var h := ClassEntryHandled(name, parent);
    assert RegisterOne(v) == Success(Registration(name, h.callback));
  }

  /** What reading the fields of a class entry gives. */
  lemma ClassEntryFields(name: string, parent: Option<string>)
    ensures Get(ClassEntry(name, parent), "name") == Str(name)
    ensures Get(ClassEntry(name, parent), "strategy") == Str("class")
    ensures Get(ClassEntry(name, parent), "parentClassName")
         == if parent.Some? then Str(parent.value) else Undefined
    ensures Get(ClassEntry(name, parent), "enabled") == Undefined
  {
    if parent.Some? {
      ClassEntryWithParent(name, parent.value);
    } else {
      ClassEntryWithoutParent(name);
    }
  }

  lemma ClassEntryWithParent(name: string, parent: string)
    ensures Get(ClassEntry(name, Some(parent)), "name") == Str(name)
    ensures Get(ClassEntry(name, Some(parent)), "strategy") == Str("class")
    ensures Get(ClassEntry(name, Some(parent)), "parentClassName") == Str(parent)
    ensures Get(ClassEntry(name, Some(parent)), "enabled") == Undefined
  {
    var a, b, c := Prop("name", Str(name)), Prop("strategy", Str("class")), Prop("parentClassName", Str(parent));
    LookupThree(a, b, c, "name");
    LookupThree(a, b, c, "strategy");
    LookupThree(a, b, c, "parentClassName");
    LookupThree(a, b, c, "enabled");
  }

  lemma ClassEntryWithoutParent(name: string)
    ensures Get(ClassEntry(name, None), "name") == Str(name)
    ensures Get(ClassEntry(name, None), "strategy") == Str("class")
    ensures Get(ClassEntry(name, None), "parentClassName") == Undefined
    ensures Get(ClassEntry(name, None), "enabled") == Undefined
  {
    var a, b := Prop("name", Str(name)), Prop("strategy", Str("class"));
    LookupTwo(a, b, "name");
    LookupTwo(a, b, "strategy");
    LookupTwo(a, b, "parentClassName");
    LookupTwo(a, b, "enabled");
  }

  lemma ClassEntryHandled(name: string, parent: Option<string>)
    returns (h: Handled)
    requires |Trim(name)| > 0
    requires parent.Some? ==> |Trim(parent.value)| > 0
    ensures Handle(ClassEntry(name, parent)) == Success(h)
    ensures h.callback == ClassCallback(name, parent.GetOr(name))
  {
    if parent.Some? {
      h := ExplicitParentHandled(name, parent.value);
    } else {
      h := OmittedParentHandled(name);
    }
  }

  lemma ExplicitParentHandled(name: string, parent: string)
    returns (h: Handled)
    requires |Trim(name)| > 0 && |Trim(parent)| > 0
    ensures Handle(ClassEntry(name, Some(parent))) == Success(h)
    ensures h.callback == ClassCallback(name, parent)
  {
    var v := ClassEntry(name, Some(parent));
    ClassEntryFields(name, Some(parent));
    AcceptedClassCallback(v);
    h := Handle(v).value;
  }

  lemma OmittedParentHandled(name: string)
    returns (h: Handled)
    requires |Trim(name)| > 0
    ensures Handle(ClassEntry(name, None)) == Success(h)
    ensures h.callback == ClassCallback(name, name)
  {
    var v := ClassEntry(name, None);
    ClassEntryFields(name, None);
    OmittedParentClassNameDefaultsToName(v);
    h := Handle(v).value;
  }

  /** A string that starts with a lower-case ASCII letter is filled. */
  lemma FilledName(s: string)
    requires Plain(s)
    ensures |Trim(s)| > 0
  {
    assert !IsWhitespace(s[0]);
    FilledStringCharacterised(Str(s));
  }

  /** A string that starts with a lower-case ASCII letter, as every name in
      the catalogue does. */
  predicate Plain(s: string)
  {
    |s| > 0 && 'a' <= s[0] <= 'z'
  }

  /** The shape every catalogue entry has: names and parent class names
      start with a lower-case ASCII letter and at-rule names are non-empty. */
  predicate EntryOk(e: Entry)
  {
    && Plain(e.name)
    && (e.AtRuleSpec? ==> |e.atName| > 0)
    && (e.ClassSpec? && e.parent.Some? ==> Plain(e.parent.value))
  }

  lemma EntriesOk()
    ensures forall i | 0 <= i < |Entries| :: EntryOk(Entries[i])
  {
  }

  /** Every catalogue entry is enabled and registers without an exception,
      so the plugin given the catalogue registers all fourteen variants. */
  lemma CatalogueRegistersCleanly()
    ensures Live(Catalogue) == Catalogue
    ensures forall i | 0 <= i < |Catalogue| :: RegisterOne(Catalogue[i]).Success?
  {
    EntriesOk();
    forall i | 0 <= i < |Catalogue|
      ensures !Skipped(Catalogue[i]) && RegisterOne(Catalogue[i]).Success?
    {
      EntryRegisters(Entries[i]);
    }
    LiveOfUnskipped(Catalogue);
  }

  /** A well-shaped entry is enabled and registers without an exception. */
  lemma EntryRegisters(e: Entry)
    requires EntryOk(e)
    ensures !Skipped(Descriptor(e)) && RegisterOne(Descriptor(e)).Success?
  {
    FilledName(e.name);
    match e
    case AtRuleSpec(name, atName, params) =>
      AtRuleEntryAccepted(name, atName, params);
    case ClassSpec(name, parent) =>
      if parent.Some? {
        FilledName(parent.value);
      }
      ClassEntryAccepted(name, parent);
  }

  lemma {:induction false} LiveOfUnskipped(vs: seq<JsValue>)
    requires forall i | 0 <= i < |vs| :: !Skipped(vs[i])
    ensures Live(vs) == vs
  {
    if |vs| > 0 {
      LiveOfUnskipped(vs[..|vs| - 1]);
      assert vs == vs[..|vs| - 1] + [vs[|vs| - 1]];
    }
  }
}

=== FILE: exceptions.dfy ===
/** The plugin's exception family: a base exception whose factory prefixes
    every message with the plugin's tag, and the handler's four message
    builders, one per way a variant descriptor can be invalid. */
module Exceptions {
  import opened Wrappers
  import opened JsValues

  /** The tag every message of the plugin starts with. */
  const Prefix: string := "[TailwindCSS FeatureDetection plugin]: "

  /** A thrown exception; only its message is observable. The builders all
      produce the base class, so no subclass identity is kept. */
  datatype Exception = Exception(message: string)

  /** True when `s` starts with `p`. */
  predicate StartsWith(s: string, p: string)
  {
    |p| <= |s| && s[..|p|] == p
  }

  /** True when `t` occurs in `s` at position `i`. */
  predicate OccursAt(s: string, t: string, i: int)
  {
    0 <= i && i + |t| <= |s| && s[i..i + |t|] == t
  }

  /** `s.endsWith(t)`. */
  predicate EndsWith(s: string, t: string)
  {
    |t| <= |s| && s[|s| - |t|..] == t
  }

  /** `s.includes(t)`. */
  predicate Contains(s: string, t: string)
  {
    exists i | 0 <= i <= |s| - |t| :: OccursAt(s, t, i)
  }

  /** The base factory: the message is the tag followed by `m`. */
  function Thow(m: string): (e: Exception)
    ensures StartsWith(e.message, Prefix)
    ensures e.message[|Prefix|..] == m
  {
    Exception(Prefix + m)
  }

  /** Removes the plugin tag from a message, if the message carries it. */
  function StripPrefix(message: string): (r: Option<string>)
    ensures r.Some? <==> StartsWith(message, Prefix)
    ensures r.Some? ==> Prefix + r.value == message
  {
    if StartsWith(message, Prefix) then Some(message[|Prefix|..]) else None
  }

  /** Removing the tag gives back the original message, so `Thow` loses nothing. */
  lemma ThowRoundTrip(m: string)
    ensures StripPrefix(Thow(m).message) == Some(m)
  {
  }

  /** Distinct messages give distinct exceptions. */
  lemma ThowInjective(m1: string, m2: string)
    ensures Thow(m1) == Thow(m2) ==> m1 == m2
  {
    if Thow(m1) == Thow(m2) {
      assert m1 == Thow(m1).message[|Prefix|..];
    }
  }

  /** The four ways a descriptor can fail validation. */
  datatype ErrorKind = InvalidName | InvalidStrategy | InvalidParentClassName | InvalidAtRule

  /** The diagnosis each message states. */
  function Diagnosis(kind: ErrorKind): string
  {
    match kind
    case InvalidName => "does not have a valid name"
    case InvalidStrategy => "does not have a valid strategy"
    case InvalidParentClassName => "does not have a valid \"parentClassName\" property"
    case InvalidAtRule => "does not have a valid \"atRule\" property"
  }

  /** The remedy each message suggests, after the diagnosis. */
  function Remedy(kind: ErrorKind): string
  {
    match kind
    case InvalidName => ". Please ensure a name is correctly set."
    case InvalidStrategy => ". Please ensure the strategy is either `class` or `atRule`."
    case InvalidParentClassName =>
      ". Please ensure a value is correctly set when the variant strategy is set to `class`."
    case InvalidAtRule =>
      ". Please ensure a value is correctly set when the variant strategy is set to `atRule`."
  }

  const Intro: string := "The provided variant `"

  /** The unprefixed message of a builder, given the serialised descriptor:
      the descriptor between backticks, then the kind's sentence. */
  function Explain(kind: ErrorKind, json: string): string
  {
    (Intro + json + "`") + (" " + Diagnosis(kind) + Remedy(kind))
  }

  /** In `p + (l + (" " + d + r))`, `d` occurs right after `p + l + " "`,
      and the whole ends with `r`. */
  lemma OccursAfter(p: string, l: string, d: string, r: string)
    ensures OccursAt(p + (l + (" " + d + r)), d, |p| + |l| + 1)
    ensures EndsWith(p + (l + (" " + d + r)), r)
    ensures (p + (l + (" " + d + r)))[|p| + |l|] == ' '
  {
    var m := p + (l + (" " + d + r));
    assert m[|p| + |l| + 1..|p| + |l| + 1 + |d|] == d;
    assert m[|m| - |r|..] == r;
  }

  /** `p + (a + b)` starts with `p` and continues with `a`. */
  lemma StartsWithAfter(p: string, a: string, b: string)
    ensures StartsWith(p + (a + b), p)
    ensures StartsWith((p + (a + b))[|p|..], a)
  {
    assert (p + (a + b))[..|p|] == p;
    assert (p + (a + b))[|p|..] == a + b;
    assert (a + b)[..|a|] == a;
  }

  /** The four static builders `invalidVariantName`, `invalidVariantStrategy`,
      `invalidVariantParentClassName` and `invalidVariantAtRule`: serialise the
      descriptor with `JSON.stringify` (a parameter here) and throw through
      `Thow`. */
  function Raise(kind: ErrorKind, variant: JsValue, stringify: JsValue -> string): (e: Exception)
    ensures StartsWith(e.message, Prefix)
    ensures StartsWith(e.message[|Prefix|..], Intro + stringify(variant) + "`")
    ensures OccursAt(e.message, Diagnosis(kind), |Prefix| + |Intro| + |stringify(variant)| + 2)
    ensures Contains(e.message, Diagnosis(kind))
    ensures EndsWith(e.message, Remedy(kind))
    ensures e.message[|Prefix| + |Intro| + |stringify(variant)| + 1] == ' '
    ensures |e.message| == |Prefix| + |Intro| + |stringify(variant)| + 2 + |Diagnosis(kind)| + |Remedy(kind)|
  {
    var json := stringify(variant);
    OccursAfter(Prefix, Intro + json + "`", Diagnosis(kind), Remedy(kind));
    StartsWithAfter(Prefix, Intro + json + "`", " " + Diagnosis(kind) + Remedy(kind));
    Thow(Explain(kind, json))
  }

  /** The strategy message names both accepted strategies. */
  lemma StrategyMessageNamesBothStrategies(variant: JsValue, stringify: JsValue -> string)
    ensures Contains(Raise(InvalidStrategy, variant, stringify).message, "`class`")
    ensures Contains(Raise(InvalidStrategy, variant, stringify).message, "`atRule`")
  {
    var m := Raise(InvalidStrategy, variant, stringify).message;
    var r := Remedy(InvalidStrategy);
    RemedyNamesStrategies();
    OccursWithin(m, r, |m| - |r|, "`class`", 39);
    OccursWithin(m, r, |m| - |r|, "`atRule`", 50);
  }

  /** Where the remedy of the strategy message names the two strategies. */
  lemma RemedyNamesStrategies()
    ensures OccursAt(Remedy(InvalidStrategy), "`class`", 39)
    ensures OccursAt(Remedy(InvalidStrategy), "`atRule`", 50)
  {
    var r := Remedy(InvalidStrategy);
    assert r == ". Please ensure the strategy is either `class` or `atRule`.";
    assert r[39..46] == "`class`";
    assert r[50..58] == "`atRule`";
  }

  /** An occurrence inside an occurrence is an occurrence. */
  lemma OccursWithin(s: string, r: string, i: int, t: string, j: int)
    requires OccursAt(s, r, i) && OccursAt(r, t, j)
    ensures OccursAt(s, t, i + j)
  {
    forall k | 0 <= k < |t|
      ensures s[i + j + k] == t[k]
    {
      assert s[i..i + |r|][j + k] == r[j + k];
      assert r[j..j + |t|][k] == t[k];
    }
  }

  /** The message determines the kind: two builders applied to the same
      descriptor never produce the same exception. */
  lemma RaiseDistinguishesKinds(k1: ErrorKind, k2: ErrorKind, variant: JsValue, stringify: JsValue -> string)
    ensures Raise(k1, variant, stringify) == Raise(k2, variant, stringify) ==> k1 == k2
  {
    if Raise(k1, variant, stringify) == Raise(k2, variant, stringify) {
      var m := Raise(k1, variant, stringify).message;
      var at := |Prefix| + |Intro| + |stringify(variant)| + 2;
      DiagnosisLong(k1);
      DiagnosisLong(k2);
      CharOfOccurrence(m, Diagnosis(k1), at, 22);
      CharOfOccurrence(m, Diagnosis(k1), at, 23);
      CharOfOccurrence(m, Diagnosis(k2), at, 22);
      CharOfOccurrence(m, Diagnosis(k2), at, 23);
      DiagnosesDiffer(k1, k2);
    }
  }

  /** Two diagnoses that agree at positions 22 and 23 are the same one. */
  lemma DiagnosesDiffer(k1: ErrorKind, k2: ErrorKind)
    requires |Diagnosis(k1)| > 23 && |Diagnosis(k2)| > 23
    requires Diagnosis(k1)[22] == Diagnosis(k2)[22] && Diagnosis(k1)[23] == Diagnosis(k2)[23]
    ensures k1 == k2
  {
    DiagnosisMark(k1);
    DiagnosisMark(k2);
  }

  lemma CharOfOccurrence(s: string, t: string, i: int, k: int)
    requires OccursAt(s, t, i) && 0 <= k < |t|
    ensures s[i + k] == t[k]
  {
    assert s[i..i + |t|][k] == t[k];
  }

  lemma DiagnosisLong(k: ErrorKind)
    ensures |Diagnosis(k)| > 23
  {
  }

  /** After the common "does not have a valid ", the next two characters
      of a diagnosis tell the kinds apart. */
  lemma DiagnosisMark(k: ErrorKind)
    ensures |Diagnosis(k)| > 23
    ensures [Diagnosis(k)[22], Diagnosis(k)[23]] ==
      match k
      case InvalidName => "na"
      case InvalidStrategy => "st"
      case InvalidParentClassName => "\"p"
      case InvalidAtRule => "\"a"
  {
  }
}

=== FILE: handler.dfy ===
/** The variant handler: validates one variant descriptor, strictly in order,
    and returns the rewrite callback of its strategy. */
module Handler {
  import opened Wrappers
  import opened JsValues
  import opened Exceptions
  import opened CssTree

  /** The callback `handle` returns, as the data it closes over. */
  datatype Callback =
    | ClassCallback(name: string, parentClassName: string)
    | AtRuleCallback(name: string, atRule: JsValue)

  /** A successful `handle`: the callback and the descriptor as `handle`
      leaves it (the class strategy may write `parentClassName`). */
  datatype Handled = Handled(callback: Callback, variant: JsValue)

  /** What `handle` can throw: the plugin exception that the builder for
      `kind` makes of `subject` (its text is `Raise(kind, subject, stringify)`),
      or the engine's TypeError when the descriptor is `undefined` or `null`
      and property `key` is read from it. */
  datatype Failure =
    | HandlerError(kind: ErrorKind, subject: JsValue)
    | TypeError(key: string)

  // The individual checks, each over the descriptor as it stands.

  predicate NameOk(variant: JsValue)
    requires !Nullish(variant)
  {
    IsFilledString(Get(variant, "name"))
  }

  predicate IsClassStrategy(variant: JsValue)
    requires !Nullish(variant)
  {
    Get(variant, "strategy") == Str("class")
  }

  predicate IsAtRuleStrategy(variant: JsValue)
    requires !Nullish(variant)
  {
    Get(variant, "strategy") == Str("atRule")
  }

  /** `parentClassName` is acceptable as given: omitted, or a filled string. */
  predicate ParentClassNameOk(variant: JsValue)
    requires !Nullish(variant)
  {
    Get(variant, "parentClassName").Undefined? || IsFilledString(Get(variant, "parentClassName"))
  }

  /** `atRule` is truthy, of type object and has a truthy `name`. */
  predicate ValidAtRule(atRule: JsValue)
  {
    Truthy(atRule) && TypeOf(atRule) == TObject && Truthy(Get(atRule, "name"))
  }

  predicate AtRuleOk(variant: JsValue)
    requires !Nullish(variant)
  {
    ValidAtRule(Get(variant, "atRule"))
  }

  /** Only an object can carry a `strategy`. */
  lemma StrategyOnlyOnObjects(variant: JsValue)
    requires !Nullish(variant) && Get(variant, "strategy").Str?
    ensures variant.Obj?
  {
  }

  function Fail(kind: ErrorKind, variant: JsValue): Result<Handled, Failure>
  {
    Failure(HandlerError(kind, variant))
  }

  /** `Handler.handle`: the name check, then dispatch on the strategy tag. */
  function Handle(variant: JsValue): (r: Result<Handled, Failure>)
    ensures r.Failure? && r.error.TypeError? <==> Nullish(variant)
    ensures r.Failure? && r.error.HandlerError? ==> r.error.subject == variant
    ensures r.Success? ==>
      && NameOk(variant)
      && Str(r.value.callback.name) == Get(variant, "name")
      && r.value.variant.Obj?
      && (forall k {:trigger Get(r.value.variant, k)} | k != "parentClassName" :: Get(r.value.variant, k) == Get(variant, k))
      && (!Get(variant, "parentClassName").Undefined? ==> r.value.variant == variant)
  {
    if Nullish(variant) then Failure(TypeError("name"))
    else if !NameOk(variant) then Fail(InvalidName, variant)
    else if IsClassStrategy(variant) then
      StrategyOnlyOnObjects(variant);
      HandleClassStrategy(variant)
    else if IsAtRuleStrategy(variant) then
      StrategyOnlyOnObjects(variant);
      HandleAtRuleStrategy(variant)
    else Fail(InvalidStrategy, variant)
  }

  /** `handleClassStrategy`: default an undefined `parentClassName` to the
      (untrimmed) name, then require a filled string. */
  function HandleClassStrategy(variant: JsValue): (r: Result<Handled, Failure>)
    requires !Nullish(variant) && NameOk(variant) && IsClassStrategy(variant)
    ensures r.Success? <==> ParentClassNameOk(variant)
    ensures r.Failure? ==> r == Fail(InvalidParentClassName, variant)
    ensures r.Success? ==>
      && r.value.callback.ClassCallback?
      && Str(r.value.callback.name) == Get(variant, "name")
      && (Get(variant, "parentClassName").Undefined? ==>
            r.value.callback.parentClassName == r.value.callback.name)
      && (!Get(variant, "parentClassName").Undefined? ==>
            Str(r.value.callback.parentClassName) == Get(variant, "parentClassName"))
  {
    var resolved := DefaultParentClassName(variant);
    var parent := Get(resolved, "parentClassName");
    if !IsFilledString(parent) then Fail(InvalidParentClassName, resolved)
    else Success(Handled(ClassCallback(Get(resolved, "name").s, parent.s), resolved))
  }

  /** The defaulting step of `handleClassStrategy`: an undefined
      `parentClassName` is set to the name; a given one is kept. */
  function DefaultParentClassName(variant: JsValue): (r: JsValue)
    requires !Nullish(variant) && IsClassStrategy(variant)
    ensures !Nullish(r) && Get(r, "name") == Get(variant, "name")
    ensures Get(variant, "parentClassName").Undefined? ==>
      Get(r, "parentClassName") == Get(variant, "name")
    ensures !Get(variant, "parentClassName").Undefined? ==> r == variant
  {
    StrategyOnlyOnObjects(variant);
    if Get(variant, "parentClassName").Undefined?
    then Put(variant, "parentClassName", Get(variant, "name"))
    else variant
  }

  /** `handleAtRuleStrategy`: require a usable `atRule`; nothing is written. */
  function HandleAtRuleStrategy(variant: JsValue): (r: Result<Handled, Failure>)
    requires !Nullish(variant) && NameOk(variant) && IsAtRuleStrategy(variant)
    ensures r.Success? <==> AtRuleOk(variant)
    ensures r.Failure? ==> r == Fail(InvalidAtRule, variant)
    ensures r.Success? ==>
      && r.value == Handled(AtRuleCallback(r.value.callback.name, Get(variant, "atRule")), variant)
      && Str(r.value.callback.name) == Get(variant, "name")
  {
    if !AtRuleOk(variant) then Fail(InvalidAtRule, variant)
    else Success(Handled(AtRuleCallback(Get(variant, "name").s, Get(variant, "atRule")), variant))
  }

  // ---------------------------------------------------------------------
  // The two rewrite callbacks, applied to the host's hooks.

  /** The class strategy's function handed to `modifySelectors`: the
      generated class `className` becomes a descendant of the parent class,
      and carries the variant name and separator in front. */
  function ClassSelector(name: string, parentClassName: string, e: string -> string,
                         separator: string, className: string): string
  {
    "." + e(parentClassName) + " ." + e(name + separator + className)
  }

  /** JavaScript's `s.slice(1)`: everything after the first character. */
  function DropFirst(s: string): (r: string)
    ensures |s| > 0 ==> [s[0]] + r == s
    ensures |s| == 0 ==> r == ""
  {
    if |s| == 0 then "" else s[1..]
  }

  /** The at-rule strategy's selector rewrite: the first character (the
      class dot of a single class selector) is dropped, the variant name
      and separator go in front and the whole is escaped again. */
  function Retarget(name: string, e: string -> string, separator: string): string -> string
  {
    sel => "." + e(name + separator + DropFirst(sel))
  }

  /** The at-rule callback on the container's children: a new at-rule built
      from the descriptor's `atRule` props becomes the only child, the
      former children move into it in order, and every rule inside gets
      its selector retargeted. */
  function WrapInAtRule(atRule: JsValue, name: string, e: string -> string,
                        separator: string, children: seq<Node>): (r: seq<Node>)
    ensures |r| == 1 && r[0].AtRule? && r[0].spec == atRule
    ensures Skeletons(r[0].nodes) == Skeletons(children)
    ensures |Selectors(r[0].nodes)| == |Selectors(children)|
    ensures forall i | 0 <= i < |Selectors(children)| ::
      Selectors(r[0].nodes)[i] == "." + e(name + separator + DropFirst(Selectors(children)[i]))
  {
    var moved := WalkRules(children, Retarget(name, e, separator));
    WalkRulesKeepSkeleton(children, Retarget(name, e, separator));
    WalkRulesMapSelectors(children, Retarget(name, e, separator));
    [AtRule(atRule, moved)]
  }

  /** The class callback applied through `modifySelectors` to one class name. */
  function ApplyToClassName(cb: Callback, e: string -> string, separator: string, className: string): (r: string)
    requires cb.ClassCallback?
    ensures var p, q := e(cb.parentClassName), e(cb.name + separator + className);
      && |r| == |p| + |q| + 3
      && r[0] == '.' && r[1..|p| + 1] == p
      && r[|p| + 1..|p| + 3] == " ."
      && r[|p| + 3..] == q
  {
    ClassSelector(cb.name, cb.parentClassName, e, separator, className)
  }

  /** The at-rule callback applied to a container's children. */
  function ApplyToContainer(cb: Callback, e: string -> string, separator: string, children: seq<Node>): (r: seq<Node>)
    requires cb.AtRuleCallback?
    ensures |r| == 1 && r[0].AtRule? && r[0].spec == cb.atRule
    ensures Skeletons(r[0].nodes) == Skeletons(children)
    ensures |Selectors(r[0].nodes)| == |Selectors(children)|
    ensures forall i | 0 <= i < |Selectors(children)| ::
      Selectors(r[0].nodes)[i] == "." + e(cb.name + separator + DropFirst(Selectors(children)[i]))
  {
    WrapInAtRule(cb.atRule, cb.name, e, separator, children)
  }
}

=== FILE: handler_properties.dfy ===
/** What `Handler.handle` promises: the order of its checks, the one
    defaulting rule, the fields it reads and writes, and what its two
    callbacks do to selectors and to the rule tree. */
module HandlerProperties {
  import opened Wrappers
  import opened JsValues
  import opened Exceptions
  import opened CssTree
  import opened Handler

  /** The kind of plugin exception a call of `handle` ended with, if any. */
  function KindOf(r: Result<Handled, Failure>): Option<ErrorKind>
  {
    if r.Failure? && r.error.HandlerError? then Some(r.error.kind) else None
  }

  // ---------------------------------------------------------------------
  // Validation order: first failure wins.

  /** The name is checked first: a descriptor fails with InvalidName exactly
      when its name is not a string or is blank, whatever its other fields. */
  lemma HandleRejectsInvalidName(variant: JsValue)
    requires !Nullish(variant)
    ensures KindOf(Handle(variant)) == Some(InvalidName) <==> !NameOk(variant)
  {
    HandleCases(variant);
  }

  /** A blank name (only whitespace, or empty) is an invalid name. */
  lemma BlankNameRejected(variant: JsValue)
    requires !Nullish(variant)
    requires Get(variant, "name").Str? && AllWhitespace(Get(variant, "name").s)
    ensures KindOf(Handle(variant)) == Some(InvalidName)
  {
    TrimEmptyIffAllWhitespace(Get(variant, "name").s);
  }

  /** With a valid name, any strategy other than exactly `class` or `atRule`
      fails with InvalidStrategy, and only such a strategy does. */
  lemma HandleRejectsInvalidStrategy(variant: JsValue)
    requires !Nullish(variant)
    ensures KindOf(Handle(variant)) == Some(InvalidStrategy)
        <==> NameOk(variant) && !IsClassStrategy(variant) && !IsAtRuleStrategy(variant)
  {
    HandleCases(variant);
  }

  /** InvalidParentClassName arises exactly for the class strategy with an
      explicitly given `parentClassName` that is not a filled string. */
  lemma HandleRejectsInvalidParentClassName(variant: JsValue)
    requires !Nullish(variant)
    ensures KindOf(Handle(variant)) == Some(InvalidParentClassName)
        <==> && NameOk(variant) && IsClassStrategy(variant)
             && !Get(variant, "parentClassName").Undefined?
             && !IsFilledString(Get(variant, "parentClassName"))
  {
    HandleCases(variant);
  }

  /** InvalidAtRule arises exactly for the at-rule strategy with an `atRule`
      that is falsy, not of type object, or has a falsy `name`. */
  lemma HandleRejectsInvalidAtRule(variant: JsValue)
    requires !Nullish(variant)
    ensures KindOf(Handle(variant)) == Some(InvalidAtRule)
        <==> && NameOk(variant) && IsAtRuleStrategy(variant)
             && !(Truthy(Get(variant, "atRule")) && TypeOf(Get(variant, "atRule")) == TObject
                  && Truthy(Get(Get(variant, "atRule"), "name")))
  {
    HandleCases(variant);
  }

  /** `handle` succeeds exactly when every check of the descriptor's own
      strategy passes. */
  lemma HandleAccepts(variant: JsValue)
    ensures Handle(variant).Success?
        <==> && !Nullish(variant) && NameOk(variant)
             && ((IsClassStrategy(variant) && ParentClassNameOk(variant))
                 || (IsAtRuleStrategy(variant) && AtRuleOk(variant)))
  {
    if !Nullish(variant) {
      HandleCases(variant);
    }
  }

  /** A valid at-rule descriptor yields the at-rule callback over its own
      `atRule` props, and is left as it was. */
  lemma AcceptedAtRuleCallback(variant: JsValue)
    requires !Nullish(variant) && NameOk(variant) && IsAtRuleStrategy(variant) && AtRuleOk(variant)
    ensures Handle(variant)
         == Success(Handled(AtRuleCallback(Get(variant, "name").s, Get(variant, "atRule")), variant))
  {
    HandleCases(variant);
  }

  /** A valid class descriptor with an explicit parent class name yields the
      class callback over that name, and is left as it was. */
  lemma AcceptedClassCallback(variant: JsValue)
    requires !Nullish(variant) && NameOk(variant) && IsClassStrategy(variant)
    requires IsFilledString(Get(variant, "parentClassName"))
    ensures Handle(variant)
         == Success(Handled(ClassCallback(Get(variant, "name").s, Get(variant, "parentClassName").s), variant))
  {
    HandleCases(variant);
  }

  // ---------------------------------------------------------------------
  // The parent class name default.

  /** An omitted `parentClassName` is set to the untrimmed name and so can
      never fail: the callback nests under the name itself, and the
      descriptor now carries the name as its parent class name. */
  lemma OmittedParentClassNameDefaultsToName(variant: JsValue)
    requires !Nullish(variant) && NameOk(variant) && IsClassStrategy(variant)
    requires Get(variant, "parentClassName").Undefined?
    ensures Handle(variant).Success?
    ensures Handle(variant).value.callback
         == ClassCallback(Get(variant, "name").s, Get(variant, "name").s)
    ensures Get(Handle(variant).value.variant, "parentClassName") == Get(variant, "name")
  {
    HandleCases(variant);
  }

  /** An explicit `parentClassName` that is blank, or not a string at all
      (`null`, a number, a boolean, an array, an object, a function), fails,
      even though omitting it would have succeeded. */
  lemma ExplicitBadParentClassNameRejected(variant: JsValue)
    requires !Nullish(variant) && NameOk(variant) && IsClassStrategy(variant)
    requires !Get(variant, "parentClassName").Undefined?
    requires !Get(variant, "parentClassName").Str? || AllWhitespace(Get(variant, "parentClassName").s)
    ensures KindOf(Handle(variant)) == Some(InvalidParentClassName)
  {
    HandleCases(variant);
    if Get(variant, "parentClassName").Str? {
      TrimEmptyIffAllWhitespace(Get(variant, "parentClassName").s);
    }
  }

  /** Arrays, functions and strings are never a valid `atRule`: a modelled
      array has no `name`, the other two are not of type object. */
  lemma NonObjectAtRuleRejected(atRule: JsValue)
    requires atRule.Arr? || atRule.Func? || atRule.Str?
    ensures !ValidAtRule(atRule)
  {
  }

  // ---------------------------------------------------------------------
  // Strategy scoping, the single write, and eagerness.

  /** The dispatch of `handle`, one case per line of its body. */
  lemma HandleCases(variant: JsValue)
    requires !Nullish(variant)
    ensures !NameOk(variant) ==> Handle(variant) == Fail(InvalidName, variant)
    ensures NameOk(variant) && IsClassStrategy(variant) ==>
      Handle(variant) == HandleClassStrategy(variant)
    ensures NameOk(variant) && IsAtRuleStrategy(variant) ==>
      Handle(variant) == HandleAtRuleStrategy(variant)
    ensures NameOk(variant) && !IsClassStrategy(variant) && !IsAtRuleStrategy(variant) ==>
      Handle(variant) == Fail(InvalidStrategy, variant)
  {
    if !NameOk(variant) {
      NameDispatch(variant);
    } else if IsClassStrategy(variant) {
      ClassDispatch(variant);
    } else if IsAtRuleStrategy(variant) {
      AtRuleDispatch(variant);
    }
  }

  /** A descriptor whose name check fails is rejected before anything else. */
  lemma NameDispatch(variant: JsValue)
    requires !Nullish(variant) && !NameOk(variant)
    ensures Handle(variant) == Fail(InvalidName, variant)
  {
  }

  /** Past the name check, a class descriptor is handled by the class strategy. */
  lemma ClassDispatch(variant: JsValue)
    requires !Nullish(variant) && NameOk(variant) && IsClassStrategy(variant)
    ensures Handle(variant) == HandleClassStrategy(variant)
  {
  }

  /** Past the name check, an at-rule descriptor is handled by the at-rule strategy. */
  lemma AtRuleDispatch(variant: JsValue)
    requires !Nullish(variant) && NameOk(variant) && IsAtRuleStrategy(variant)
    ensures Handle(variant) == HandleAtRuleStrategy(variant)
  {
  }

  /** The class strategy never looks at `atRule`. */
  lemma ClassStrategyIgnoresAtRule(variant: JsValue, x: JsValue)
    requires variant.Obj? && IsClassStrategy(variant)
    ensures KindOf(Handle(Put(variant, "atRule", x))) == KindOf(Handle(variant))
    ensures Handle(variant).Success? ==>
      && Handle(Put(variant, "atRule", x)).Success?
      && Handle(Put(variant, "atRule", x)).value.callback == Handle(variant).value.callback
  {
    var other := Put(variant, "atRule", x);
    PutKeepsOtherKey(variant, "atRule", x, "name");
    PutKeepsOtherKey(variant, "atRule", x, "strategy");
    PutKeepsOtherKey(variant, "atRule", x, "parentClassName");
    SameClassOutcome(variant, other);
  }

  /** Two class-strategy descriptors that agree on `name` and
      `parentClassName` are handled alike. */
  lemma SameClassOutcome(v1: JsValue, v2: JsValue)
    requires !Nullish(v1) && !Nullish(v2) && IsClassStrategy(v1) && IsClassStrategy(v2)
    requires Get(v1, "name") == Get(v2, "name")
    requires Get(v1, "parentClassName") == Get(v2, "parentClassName")
    ensures KindOf(Handle(v1)) == KindOf(Handle(v2))
    ensures Handle(v1).Success? ==>
      && Handle(v2).Success?
      && Handle(v1).value.callback == Handle(v2).value.callback
  {
    if !NameOk(v1) {
      NameDispatch(v1);
      NameDispatch(v2);
    } else {
      ClassDispatch(v1);
      ClassDispatch(v2);
      var r1 := HandleClassStrategy(v1);
      var r2 := HandleClassStrategy(v2);
      assert ParentClassNameOk(v1) == ParentClassNameOk(v2);
      if r1.Success? {
        assert r1.value.callback == r2.value.callback;
      }
    }
  }

  /** The at-rule strategy never looks at `parentClassName`. */
  lemma AtRuleStrategyIgnoresParentClassName(variant: JsValue, x: JsValue)
    requires variant.Obj? && IsAtRuleStrategy(variant)
    ensures KindOf(Handle(Put(variant, "parentClassName", x))) == KindOf(Handle(variant))
    ensures Handle(variant).Success? ==>
      && Handle(Put(variant, "parentClassName", x)).Success?
      && Handle(Put(variant, "parentClassName", x)).value.callback
         == Handle(variant).value.callback
      && Handle(variant).value.variant == variant
  {
    var other := Put(variant, "parentClassName", x);
    PutKeepsOtherKey(variant, "parentClassName", x, "name");
    PutKeepsOtherKey(variant, "parentClassName", x, "strategy");
    PutKeepsOtherKey(variant, "parentClassName", x, "atRule");
    if NameOk(variant) {
      AtRuleDispatch(variant);
      AtRuleDispatch(other);
    } else {
      NameDispatch(variant);
      NameDispatch(other);
    }
  }

  /** The descriptor `handle` leaves behind, handled again, gives the same
      outcome: the one write it performs is stable. */
  lemma HandleIdempotent(variant: JsValue)
    requires Handle(variant).Success?
    ensures Handle(Handle(variant).value.variant) == Handle(variant)
  {
    var v' := Handle(variant).value.variant;
    assert Get(v', "name") == Get(variant, "name");
    assert Get(v', "strategy") == Get(variant, "strategy");
    if IsClassStrategy(variant) {
      var r := HandleClassStrategy(variant);
      assert Handle(variant) == r;
      assert Get(v', "parentClassName") == Str(r.value.callback.parentClassName);
      var r' := HandleClassStrategy(v');
      assert Handle(v') == r';
      assert r'.value.variant == v';
    } else {
      assert v' == variant;
    }
  }

  /** Every plugin exception of `handle` carries the caller's descriptor as
      it was passed in, serialised after "The provided variant ". */
  lemma ErrorsSerialiseTheGivenDescriptor(variant: JsValue, stringify: JsValue -> string)
    requires Handle(variant).Failure? && Handle(variant).error.HandlerError?
    ensures Handle(variant).error.subject == variant
    ensures StartsWith(Raise(Handle(variant).error.kind, Handle(variant).error.subject, stringify).message,
                       Prefix)
    ensures StartsWith(Raise(Handle(variant).error.kind, Handle(variant).error.subject, stringify).message[|Prefix|..],
                       Intro + stringify(variant) + "`")
    ensures Contains(Raise(Handle(variant).error.kind, Handle(variant).error.subject, stringify).message,
                     Diagnosis(Handle(variant).error.kind))
  {
  }

  // ---------------------------------------------------------------------
  // The class callback.

  /** Injective escaping keeps distinct utility classes distinct under the
      variant. */
  lemma ClassSelectorInjective(name: string, parentClassName: string, e: string -> string,
                               separator: string, c1: string, c2: string)
    requires forall x, y :: e(x) == e(y) ==> x == y
    ensures (ClassSelector(name, parentClassName, e, separator, c1)
             == ClassSelector(name, parentClassName, e, separator, c2)) ==> c1 == c2
  {
    var p := "." + e(parentClassName) + " .";
    if ClassSelector(name, parentClassName, e, separator, c1)
       == ClassSelector(name, parentClassName, e, separator, c2) {
      assert ClassSelector(name, parentClassName, e, separator, c1)[|p|..]
          == e(name + separator + c1);
      assert ClassSelector(name, parentClassName, e, separator, c2)[|p|..]
          == e(name + separator + c2);
      assert (name + separator + c1)[|name + separator|..] == c1;
      assert (name + separator + c2)[|name + separator|..] == c2;
    }
  }

  /** The position of the first space in `s`, or `|s|` when there is none. */
  function IndexOfSpace(s: string): (k: nat)
    ensures k <= |s|
    ensures forall j | 0 <= j < k :: s[j] != ' '
    ensures k < |s| ==> s[k] == ' '
  {
    if |s| == 0 || s[0] == ' ' then 0 else 1 + IndexOfSpace(s[1..])
  }

  /** Reads a descendant selector `.A .B` back into its two class tokens
      `A` and `B`, splitting at the first space. */
  function SplitDescendant(sel: string): Option<(string, string)>
  {
    if |sel| == 0 || sel[0] != '.' then None
    else
      var k := 1 + IndexOfSpace(sel[1..]);
      if k + 1 < |sel| && sel[k + 1] == '.' then Some((sel[1..k], sel[k + 2..])) else None
  }

  /** When the escaped parent class contains no space, the class callback's selector is
      exactly two class selectors joined by a descendant combinator: the
      escaped parent class, then the escaped variant-prefixed class. */
  lemma ClassSelectorIsDescendantOfParent(name: string, parentClassName: string, e: string -> string,
                                          separator: string, className: string)
    requires ' ' !in e(parentClassName)
    ensures SplitDescendant(ClassSelector(name, parentClassName, e, separator, className))
         == Some((e(parentClassName), e(name + separator + className)))
  {
    var a := e(parentClassName);
    var b := e(name + separator + className);
    var sel := ClassSelector(name, parentClassName, e, separator, className);
    assert sel == "." + a + " ." + b;
    assert sel[1..] == a + (" ." + b);
    IndexOfSpaceAt(a, " ." + b);
    assert sel[1..|a| + 1] == a;
    assert sel[|a| + 3..] == b;
  }

  lemma {:induction false} IndexOfSpaceAt(a: string, b: string)
    requires ' ' !in a && |b| > 0 && b[0] == ' '
    ensures IndexOfSpace(a + b) == |a|
  {
    if |a| > 0 {
      assert (a + b)[0] == a[0];
      assert (a + b)[1..] == a[1..] + b;
      IndexOfSpaceAt(a[1..], b);
    }
  }

  /** What an accepted class descriptor's callback makes of a class name:
      the escaped variant-prefixed class nested under the escaped parent,
      which is the descriptor's own name when it gives none. */
  lemma AcceptedClassSelector(variant: JsValue, e: string -> string, separator: string, className: string)
    requires !Nullish(variant) && IsClassStrategy(variant) && Handle(variant).Success?
    ensures var parent := if Get(variant, "parentClassName").Undefined? then Get(variant, "name").s
                          else Get(variant, "parentClassName").s;
      && Handle(variant).value.callback.ClassCallback?
      && ApplyToClassName(Handle(variant).value.callback, e, separator, className)
         == "." + e(parent) + " ." + e(Get(variant, "name").s + separator + className)
  {
    HandleCases(variant);
  }

  // ---------------------------------------------------------------------
  // The at-rule callback.

  /** What an accepted at-rule descriptor's callback makes of a container:
      its children retargeted and moved into a new at-rule built from the
      descriptor's own `atRule`. */
  lemma AcceptedAtRuleContainer(variant: JsValue, e: string -> string, separator: string, children: seq<Node>)
    requires !Nullish(variant) && IsAtRuleStrategy(variant) && Handle(variant).Success?
    ensures && Handle(variant).value.callback.AtRuleCallback?
            && ApplyToContainer(Handle(variant).value.callback, e, separator, children)
               == WrapInAtRule(Get(variant, "atRule"), Get(variant, "name").s, e, separator, children)
  {
    HandleAccepts(variant);
    AcceptedAtRuleCallback(variant);
  }

  /** A rule whose selector is a single class `.c` ends up as the single
      class `.e(name + separator + c)` inside the new at-rule. */
  lemma AtRuleRetargetsSimpleClass(atRule: JsValue, name: string, e: string -> string,
                                   separator: string, children: seq<Node>, i: nat, c: string)
    requires i < |Selectors(children)| && Selectors(children)[i] == "." + c
    ensures Selectors(WrapInAtRule(atRule, name, e, separator, children)[0].nodes)[i]
         == "." + e(name + separator + c)
  {
    assert DropFirst("." + c) == c;
  }

  /** The at-rule callback's result is fully determined: any forest with the
      former children's skeleton whose selectors are retargeted is exactly
      the new at-rule's content. */
  lemma WrapInAtRuleDetermined(atRule: JsValue, name: string, e: string -> string,
                               separator: string, children: seq<Node>, content: seq<Node>)
    requires Skeletons(content) == Skeletons(children)
    requires Selectors(content) == MapSeq(Retarget(name, e, separator), Selectors(children))
    ensures WrapInAtRule(atRule, name, e, separator, children) == [AtRule(atRule, content)]
  {
    WalkRulesCharacterised(children, Retarget(name, e, separator), content);
  }
}

=== FILE: js_values.dfy ===
/** The slice of JavaScript values the plugin inspects: descriptor fields are
    read with `typeof`, truthiness, strict equality and `String.prototype.trim`,
    and a descriptor may hold any value in any field. */
module JsValues {

  /** One own property of an object, in insertion order. */
  datatype Prop = Prop(key: string, value: JsValue)

  /** A JavaScript value. `Obj` keeps its own properties in insertion order
      (the order `JSON.stringify` walks). A function value carries only its
      `name` property, the one property of a non-object that the plugin reads. */
  datatype JsValue =
    | Undefined
    | Null
    | Bool(b: bool)
    | Num(n: real)
    | Str(s: string)
    | Arr(elems: seq<JsValue>)
    | Obj(props: seq<Prop>)
    | Func(name: string)

  /** The result of the `typeof` operator. */
  datatype TypeTag = TUndefined | TObject | TBoolean | TNumber | TString | TFunction

  function TypeOf(v: JsValue): (t: TypeTag)
    ensures t == TObject <==> v.Null? || v.Arr? || v.Obj?
    ensures t == TFunction <==> v.Func?
    ensures t == TString <==> v.Str?
    ensures t == TUndefined <==> v.Undefined?
  {
    match v
    case Undefined => TUndefined
    case Null => TObject
    case Bool(_) => TBoolean
    case Num(_) => TNumber
    case Str(_) => TString
    case Arr(_) => TObject
    case Obj(_) => TObject
    case Func(_) => TFunction
  }

  /** JavaScript truthiness (ToBoolean). */
  predicate Truthy(v: JsValue)
  {
    match v
    case Undefined => false
    case Null => false
    case Bool(b) => b
    case Num(n) => n != 0.0
    case Str(s) => |s| > 0
    case Arr(_) => true
    case Obj(_) => true
    case Func(_) => true
  }

  /** Reading a property of `undefined` or `null` throws a TypeError. */
  predicate Nullish(v: JsValue)
  {
    v.Undefined? || v.Null?
  }

  /** The value stored under `key` in a property list, `Undefined` when absent. */
  function Lookup(props: seq<Prop>, key: string): (r: JsValue)
    ensures (forall i | 0 <= i < |props| :: props[i].key != key) ==> r == Undefined
    ensures !r.Undefined? ==> exists i | 0 <= i < |props| :: props[i] == Prop(key, r)
  {
    if |props| == 0 then Undefined
    else if props[0].key == key then props[0].value
    else Lookup(props[1..], key)
  }

  /** The first property under `key` is the one a read finds. */
  lemma {:induction false} LookupAt(props: seq<Prop>, key: string, i: nat)
    requires i < |props| && props[i].key == key
    requires forall j | 0 <= j < i :: props[j].key != key
    ensures Lookup(props, key) == props[i].value
  {
    if i > 0 {
      LookupAt(props[1..], key, i - 1);
    }
  }

  /** Property read `v[key]` on a non-nullish value. Booleans, numbers,
      strings and arrays yield `undefined`: none of them inherits a property
      under the keys the plugin reads, and in this model an array holds only
      its elements, so it has no own named properties either. */
  function Get(v: JsValue, key: string): (r: JsValue)
    requires !Nullish(v)
  {
    match v
    case Obj(props) => Lookup(props, key)
    case Func(name) => if key == "name" then Str(name) else Undefined
    case _ => Undefined
  }

  /** Property assignment in a property list: an existing key keeps its
      position, a new key is appended. */
  function Assign(props: seq<Prop>, key: string, x: JsValue): (r: seq<Prop>)
    ensures Lookup(r, key) == x
    ensures forall k {:trigger Lookup(r, k)} | k != key :: Lookup(r, k) == Lookup(props, k)
    ensures forall i | 0 <= i < |r| :: r[i].key == key || r[i] in props
  {
    if |props| == 0 then [Prop(key, x)]
    else if props[0].key == key then [Prop(key, x)] + props[1..]
    else [props[0]] + Assign(props[1..], key, x)
  }

  /** Property assignment `v[key] = x` on an object (the plugin only ever
      writes to object descriptors). */
  function Put(v: JsValue, key: string, x: JsValue): (r: JsValue)
    requires v.Obj?
    ensures r.Obj? && Get(r, key) == x
    ensures forall k {:trigger Get(r, k)} | k != key :: Get(r, k) == Get(v, k)
  {
    Obj(Assign(v.props, key, x))
  }

  /** Reading from a literal list of two properties. */
  lemma LookupTwo(a: Prop, b: Prop, k: string)
    ensures Lookup([a, b], k) == if k == a.key then a.value else if k == b.key then b.value else Undefined
  {
    assert [a, b][1..] == [b];
    assert [b][1..] == [];
  }

  /** Reading from a literal list of three properties. */
  lemma LookupThree(a: Prop, b: Prop, c: Prop, k: string)
    ensures Lookup([a, b, c], k)
         == if k == a.key then a.value else if k == b.key then b.value else if k == c.key then c.value else Undefined
  {
    assert [a, b, c][1..] == [b, c];
    LookupTwo(b, c, k);
  }

  /** Writing one key of an object leaves a read of another key as it was. */
  lemma PutKeepsOtherKey(v: JsValue, key: string, x: JsValue, k: string)
    requires v.Obj? && k != key
    ensures Get(Put(v, key, x), k) == Get(v, k)
  {
  }

  /** The characters `String.prototype.trim` removes: the WhiteSpace and
      LineTerminator code points of the ECMAScript language. */
  predicate IsWhitespace(c: char)
  {
    || c == '\t' || c == '\n' || c == '\U{000B}' || c == '\U{000C}' || c == '\r'
    || c == ' ' || c == '\U{00A0}' || c == '\U{1680}'
    || ('\U{2000}' <= c <= '\U{200A}')
    || c == '\U{2028}' || c == '\U{2029}' || c == '\U{202F}' || c == '\U{205F}'
    || c == '\U{3000}' || c == '\U{FEFF}'
  }

  predicate AllWhitespace(s: string)
  {
    forall i | 0 <= i < |s| :: IsWhitespace(s[i])
  }

  /** `s.trimStart()`: the longest suffix of `s` that does not start with whitespace. */
  function TrimStart(s: string): (r: string)
    ensures |r| <= |s| && r == s[|s| - |r|..]
    ensures |r| > 0 ==> !IsWhitespace(r[0])
    ensures AllWhitespace(s[..|s| - |r|])
  {
    if |s| == 0 || !IsWhitespace(s[0]) then s
    else
      var r := TrimStart(s[1..]);
      assert s[..|s| - |r|] == [s[0]] + s[1..][..|s[1..]| - |r|];
      r
  }

  /** `s.trimEnd()`: the longest prefix of `s` that does not end with whitespace. */
  function TrimEnd(s: string): (r: string)
    ensures |r| <= |s| && r == s[..|r|]
    ensures |r| > 0 ==> !IsWhitespace(r[|r| - 1])
    ensures AllWhitespace(s[|r|..])
  {
    if |s| == 0 || !IsWhitespace(s[|s| - 1]) then s
    else
      var r := TrimEnd(s[..|s| - 1]);
      assert s[|r|..] == s[..|s| - 1][|r|..] + [s[|s| - 1]];
      r
  }

  /** `s.trim()`. */
  function Trim(s: string): string
  {
    TrimEnd(TrimStart(s))
  }

  /** `s.trim()` is empty exactly when every character of `s` is whitespace. */
  lemma TrimEmptyIffAllWhitespace(s: string)
    ensures |Trim(s)| == 0 <==> AllWhitespace(s)
  {
    var t := TrimStart(s);
    if |Trim(s)| == 0 {
      assert t[0..] == t;
      assert |t| == 0;
      assert s[..|s|] == s;
    }
    if AllWhitespace(s) {
      assert t == s[|s| - |t|..];
    }
  }

  /** The condition `typeof x === 'string' && x.trim().length > 0` that the
      plugin demands of names and parent class names. */
  predicate IsFilledString(v: JsValue)
  {
    v.Str? && |Trim(v.s)| > 0
  }

  /** A filled string is a string with at least one non-whitespace character. */
  lemma FilledStringCharacterised(v: JsValue)
    ensures IsFilledString(v) <==> v.Str? && exists i | 0 <= i < |v.s| :: !IsWhitespace(v.s[i])
  {
    if v.Str? {
      TrimEmptyIffAllWhitespace(v.s);
    }
  }
}

=== FILE: registration.dfy ===
/** The plugin's entry point: with a non-empty array of descriptors, every
    descriptor not explicitly disabled is handled and registered with the
    host under its name, in list order; the first exception stops the loop. */
module Registration {
  import opened Wrappers
  import opened JsValues
  import opened Handler

  /** One `addVariant(name, callback)` call. */
  datatype Registration = Registration(name: string, callback: Callback)

  /** `variant.enabled === false`: only the literal `false` disables. A
      nullish element is not skipped; reading its `enabled` throws. */
  predicate Skipped(variant: JsValue)
  {
    !Nullish(variant) && Get(variant, "enabled") == Bool(false)
  }

  /** The elements the loop goes on to handle, in list order. */
  function Live(vs: seq<JsValue>): (r: seq<JsValue>)
    ensures |r| <= |vs|
  {
    if |vs| == 0 then []
    else
      var last := vs[|vs| - 1];
      Live(vs[..|vs| - 1]) + (if Skipped(last) then [] else [last])
  }

  /** An element reaches `handle` exactly when it is in the list and is not
      disabled. */
  lemma {:induction false} LiveMembers(vs: seq<JsValue>)
    ensures forall x :: x in Live(vs) <==> x in vs && !Skipped(x)
  {
    if |vs| > 0 {
      LiveMembers(vs[..|vs| - 1]);
      assert vs == vs[..|vs| - 1] + [vs[|vs| - 1]];
    }
  }

  /** The loop body on an element that is not skipped: read `enabled`
      (throws on a nullish element), then `addVariant(variant.name,
      Handler.handle(variant))`. */
  function RegisterOne(variant: JsValue): (r: Result<Registration, Failure>)
    ensures r.Success? <==> Handle(variant).Success?
    ensures r.Success? ==>
      && Get(variant, "name") == Str(r.value.name)
      && r.value.callback == Handle(variant).value.callback
    ensures r.Failure? && !Nullish(variant) ==> r.error == Handle(variant).error
    ensures Nullish(variant) ==> r == Failure(TypeError("enabled"))
  {
    if Nullish(variant) then Failure(TypeError("enabled"))
    else
      match Handle(variant)
      case Success(h) => Success(Registration(Get(variant, "name").s, h.callback))
      case Failure(f) => Failure(f)
  }

  /** Every element of `live` registered successfully, giving `added`. */
  predicate RegisteredAll(live: seq<JsValue>, added: seq<Registration>)
  {
    |added| == |live| && forall j | 0 <= j < |live| :: RegisterOne(live[j]) == Success(added[j])
  }

  /** The loop stopped at element `k` with failure `f`, after registering
      exactly the live elements before `k`. */
  predicate StoppedAt(vs: seq<JsValue>, k: int, added: seq<Registration>, f: Failure)
  {
    && 0 <= k < |vs|
    && !Skipped(vs[k])
    && RegisterOne(vs[k]) == Failure(f)
    && RegisteredAll(Live(vs[..k]), added)
  }

  /** The plugin applied to its options: `added` are the `addVariant` calls
      made, in order, and `failure` the exception that escaped, if any. */
  method Plugin(options: JsValue)
    returns (added: seq<Registration>, failure: Option<Failure>)
    ensures (!options.Arr? || |options.elems| == 0) ==> added == [] && failure == None
    ensures options.Arr? && failure.None? ==> RegisteredAll(Live(options.elems), added)
    ensures failure.Some? ==>
      && options.Arr?
      && exists k :: StoppedAt(options.elems, k, added, failure.value)
  {
    added := [];
    failure := None;
    if !options.Arr? || |options.elems| == 0 {
      return;
    }
    var vs := options.elems;
    var i := 0;
    while i < |vs|
      invariant 0 <= i <= |vs|
      invariant RegisteredAll(Live(vs[..i]), added)
    {
      var f;
      added, f := Visit(vs, i, added);
      if f.Some? {
        failure := f;
        return;
      }
      i := i + 1;
    }
    assert vs[..i] == vs;
  }

  /** One iteration of the loop, on element `i`: a disabled element is
      passed over, any other one is registered or stops the loop. */
  method Visit(vs: seq<JsValue>, i: nat, added: seq<Registration>)
    returns (added': seq<Registration>, failure: Option<Failure>)
    requires i < |vs| && RegisteredAll(Live(vs[..i]), added)
    ensures failure.None? ==> RegisteredAll(Live(vs[..i + 1]), added')
    ensures failure.Some? ==> StoppedAt(vs, i, added', failure.value)
  {
    var v := vs[i];
    LiveStep(vs, i);
    added' := added;
    failure := None;
    if !Skipped(v) {
      var r := RegisterOne(v);
      if r.Failure? {
        failure := Some(r.error);
        StopHere(vs, i, added, r.error);
        return;
      }
      RegisteredAllStep(Live(vs[..i]), added, v, r.value);
      added' := added + [r.value];
    }
  }

  lemma StopHere(vs: seq<JsValue>, i: nat, added: seq<Registration>, f: Failure)
    requires i < |vs| && !Skipped(vs[i]) && RegisterOne(vs[i]) == Failure(f)
    requires RegisteredAll(Live(vs[..i]), added)
    ensures StoppedAt(vs, i, added, f)
  {
  }

  lemma LiveStep(vs: seq<JsValue>, i: nat)
    requires i < |vs|
    ensures Live(vs[..i + 1]) == Live(vs[..i]) + (if Skipped(vs[i]) then [] else [vs[i]])
  {
    assert vs[..i + 1][..i] == vs[..i];
  }

  lemma RegisteredAllStep(live: seq<JsValue>, added: seq<Registration>, v: JsValue, reg: Registration)
    requires RegisteredAll(live, added)
    requires RegisterOne(v) == Success(reg)
    ensures RegisteredAll(live + [v], added + [reg])
  {
    var l := live + [v];
    var a := added + [reg];
    forall j | 0 <= j < |l| ensures RegisterOne(l[j]) == Success(a[j]) {
      if j < |live| {
        assert l[j] == live[j] && a[j] == added[j];
      }
    }
  }

  /** A list whose every element is disabled registers nothing and throws
      nothing, however malformed the descriptors are otherwise. */
  lemma {:induction false} AllDisabledIsSilent(vs: seq<JsValue>)
    requires forall i | 0 <= i < |vs| :: Skipped(vs[i])
    ensures Live(vs) == []
    ensures forall k, added, f :: !StoppedAt(vs, k, added, f)
  {
    if |vs| > 0 {
      AllDisabledIsSilent(vs[..|vs| - 1]);
    }
  }
}

=== FILE: wrappers.dfy ===
/** Failure-carrying wrappers used throughout the model: the source signals
    failure by throwing, which the model turns into a `Failure` value. */
module Wrappers {

  datatype Option<+T> = None | Some(value: T) {

    /** The value, or `default` when there is none. */
    function GetOr(default: T): T
    {
      match this
      case Some(v) => v
      case None => default
    }
  }

  datatype Result<+R, +E> = Success(value: R) | Failure(error: E)
}
